=== FILE: README.md ===
# Aurora PostgreSQL backup and restore, modelled in Dafny

This project models the three Python scripts that back up and restore one
database of an Aurora PostgreSQL cluster through an EC2 worker:

- `ec2-scripts/aurora-operation.py`, which runs on the worker. Its `main`
  reads credentials from a secret, then either dumps a database (plus the
  cluster's roles) and uploads the dump to S3 under
  `manual/{cluster}/{database}/{time}/{file}`, or restores one. A restore
  checks whether the database exists, drops its public tables if it does,
  downloads the backup for a timestamp into `/tmp/{cluster}-{database}-{timestamp}`,
  restores it, and vacuums and analyzes every public table.
- `gather-aurora-info.py`, which picks the cluster endpoint for the operation
  (reader for backup, writer for restore), and the availability zone and
  subnet of a member in the matching role. It writes them as a three-key
  JSON record.
- `execute-ssm.py`, which sends the worker script to the instance through
  SSM `AWS-RunRemoteScript` with a fixed command line, then polls the
  invocation's status.

Every external service is an input:

- Secrets Manager
- the RDS describe calls
- S3 listing and transfers
- PostgreSQL connections and queries
- `pg_dump` / `pg_restore` / `pg_dumpall`
- SSM
- the clock

The model is a set of pure functions and four methods over immutable data.

| module | file | contents |
|---|---|---|
| `Wrappers` | wrappers.dfy | `Option` and `Result` |
| `Text` | text.dfy | `startswith`, `in`, `rsplit('/', 1)[-1]`, `split(' ')` |
| `Json` | json.dfy | decoded secret values, Python truthiness, `get_nested` |
| `Requests` | requests.dfy | the parsed command-line arguments |
| `Naming` | naming.dfy | local directory, object keys, download prefix, role-dump key |
| `Transfer` | transfer.dfy | `copy_to_s3` keys, `copy_from_s3` selection and targets |
| `Maintenance` | maintenance.dfy | `check_existing_db`, `drop_tables`, `vacuum_analyze_tables` |
| `Operation` | operation.dfy | `main` as a trace of steps, and properties across runs |
| `Discovery` | discovery.dfy | `get_instance_info`, `get_cluster_info`, the output record |
| `Dispatch` | dispatch.dfy | command line, script URL, `send_command` parameters, polling |

Where the scripts' behaviour is less tidy than a description of them would
suggest, the model follows the code:

- With several members in the required role, the last one wins. The same
  holds for subnets.
- A subnet is chosen when the zone name occurs anywhere in its textual
  form.
- A run with no member in the role fails with an unbound local, not a
  dedicated error.
- The poll loop tests only `Success` on its first observation. A first
  `Failed` keeps it polling.
- The download prefix has no trailing '/'.
- The local dump directory joins cluster and database with '-', so it is
  ambiguous.
- `drop_tables` and `vacuum_analyze_tables` always return false.
- A database named `roles` shares its folder with the role dumps. Restoring it at a backup's timestamp also fetches that backup's `roles.dump` into the dump directory.

## Model

| member | source | states |
|---|---|---|
| Json.GetNested | ec2-scripts/aurora-operation.py:15-20 | The walk gives `None` when the keys run out, the current value is falsy or the key is empty. A non-empty key on a truthy value that is not a dict fails, as `.get` raises there, and that is the only way it fails. |
| Json.SingleKeyIsGet | ec2-scripts/aurora-operation.py:16-20 | One non-empty key on a non-empty dict is exactly `dict.get`: the stored value, or `None` when the key is absent. |
| Json.NullAbsorbs | ec2-scripts/aurora-operation.py:16 | Once a lookup has produced `None`, every further key keeps `None`. |
| Json.GetNestedIsFold | ec2-scripts/aurora-operation.py:15-20 | With at least one key, `get_nested` equals single-key lookups applied left to right with the first failure kept. |
| Json.GetNestedFollowsPath | ec2-scripts/aurora-operation.py:15-20 | For a path of non-empty keys through nested dicts, the walk returns the value stored at the path's end. |
| Requests.OperationName | ec2-scripts/aurora-operation.py:300 | The operation's text is `backup` for the backup operation and `restore` for the restore operation. |
| Text.LastSegment | ec2-scripts/aurora-operation.py:280 | The result is a suffix of the key and holds no '/'. It is the whole key, or the character just before it is a '/', so it is the text after the last '/'. |
| Text.LastSegmentOfJoin | ec2-scripts/aurora-operation.py:280-281 | The last segment of `p + "/" + name` is `name` whenever `name` holds no '/'. |
| Naming.LocalDir | ec2-scripts/aurora-operation.py:245 | The dump directory (also written at lines 79, 109 and 272) lies in `/tmp/`, is as long as its three parts plus two separators, and ends with '-' and then the time. |
| Naming.LocalDirSeparatesTimes | ec2-scripts/aurora-operation.py:245 | For one cluster and database, two dump directories are equal exactly when their times are. |
| Naming.ObjectKey | ec2-scripts/aurora-operation.py:250 | An upload key is as long as its five parts and four '/' separators. It ends with '/' and then the file name, so the file name is its last component. |
| Naming.ObjectPrefix | ec2-scripts/aurora-operation.py:271 | The download prefix starts with `{backup_type}/`, so it lies inside that backup type's tree, and is as long as its four parts plus three separators. |
| Naming.RolesKey | ec2-scripts/aurora-operation.py:215 | The role dump is stored at the object key of folder `roles` and file `roles.dump` for the cluster and time. |
| Naming.KeyExtendsPrefix | ec2-scripts/aurora-operation.py:250-271 | Every upload key is the download prefix for the same cluster, database and time, then '/', then the file name. So it starts with that prefix. |
| Naming.FileNameRoundTrip | ec2-scripts/aurora-operation.py:250-280 | Downloading names a file after its key's last segment, which is the uploaded file name when that name holds no '/'. |
| Naming.SplitAtSlash | ec2-scripts/aurora-operation.py:250 | Two '/'-joined strings whose first parts hold no '/' are equal only when both parts agree. |
| Naming.KeyIdentifiesBackup | ec2-scripts/aurora-operation.py:250 | When no component holds '/', the upload key determines the backup type, cluster, database, time and file name. Distinct backups never share a key. |
| Naming.PrefixSelectsOwnTimestamp | ec2-scripts/aurora-operation.py:271-276 | Backups whose timestamps have the same length (as every `get_time` stamp has) share a key only under the same timestamp. |
| Naming.PrefixNotDelimited | ec2-scripts/aurora-operation.py:271-276 | Because the prefix has no trailing '/', a shorter timestamp's prefix also selects another backup's objects. |
| Naming.RolesKeyUnderPrefix | ec2-scripts/aurora-operation.py:215 | The role dump lies under a database's download prefix for the same time exactly when that database is named `roles`. |
| Naming.PrefixPinsObject | ec2-scripts/aurora-operation.py:271-276 | A stored object's key is `{backup_type}/{cluster}/{folder}/{time}/{name}`. Take objects whose cluster and folder hold no '/' and whose timestamps have the prefix's width. A download prefix selects only those with its own cluster, timestamp, and the database as folder. So a role dump (folder `roles`) is picked up only by a database named `roles`. |
| Naming.LocalDirAmbiguous | ec2-scripts/aurora-operation.py:245 | Two different cluster/database pairs can share one dump directory. |
| Transfer.UploadKeys | ec2-scripts/aurora-operation.py:247-250 | There is one key per dumped file, in walk order: key `i` is the object key of file `i` under the backup's time. |
| Transfer.Selected | ec2-scripts/aurora-operation.py:276 | A key is selected exactly when it is listed and starts with the prefix. The selection is no longer than the listing. |
| Transfer.SelectedCounts | ec2-scripts/aurora-operation.py:276 | Each key carrying the prefix is selected as many times as it is listed, and any other key never. |
| Transfer.SelectedAppend | ec2-scripts/aurora-operation.py:276-277 | Filtering a listing split in two is filtering each part and joining the results, so the selection keeps the listing's order. |
| Transfer.SelectedOne | ec2-scripts/aurora-operation.py:276-277 | A one-key listing is kept exactly when its key carries the prefix. With `Transfer.SelectedAppend` this fixes the selection as the order-keeping filter. |
| Transfer.DownloadTargets | ec2-scripts/aurora-operation.py:277-281 | There is one fetch per selected key. Each key's local path is exactly the download directory, a '/', and the key's last segment, which holds no '/'. |
| Transfer.SelectedKeepsAll | ec2-scripts/aurora-operation.py:276 | A listing in which every key carries the prefix passes the filter unchanged. |
| Transfer.SelectsExactlyUploads | ec2-scripts/aurora-operation.py:250-276 | Take a bucket listing, in any order, a backup's files beside other backups' files and role dumps, where nothing else is stored in the backup's own folder. Keys outside the `{backup_type}/` tree, such as the worker script `ec2-scripts/prepare-execute.sh`, may be listed too. The backup's prefix selects exactly the keys that backup uploaded. |
| Transfer.RolesRestoreSelectsRoleDump | ec2-scripts/aurora-operation.py:215-276 | When the bucket holds a cluster's role dump for a time, restoring a database named `roles` at that time selects the role dump's key. |
| Transfer.RestoreReadsWhatBackupWrote | ec2-scripts/aurora-operation.py:245-281 | Over such a bucket, keys outside the backup type's tree included, the download for the backup's timestamp fetches exactly the uploaded keys, and nothing else. Each goes into the dump directory under the dumped file's own name. |
| Maintenance.DatabaseExists | ec2-scripts/aurora-operation.py:126-153 | The check is true exactly when a connection was made and some listed database name equals the target. |
| Maintenance.AnyEquals | ec2-scripts/aurora-operation.py:144-147 | The loop's flag ends true exactly when some row matches, and is never cleared. |
| Maintenance.StatementNamesTable | ec2-scripts/aurora-operation.py:175-204 | The table can be read back from its drop or vacuum statement. |
| Maintenance.Statements | ec2-scripts/aurora-operation.py:173-204 | There is one statement per table, in order: statement `i` is the statement for table `i`, and names that table. |
| Maintenance.Issued | ec2-scripts/aurora-operation.py:166-180 | Without a connection, nothing is issued. Otherwise statement `i` is the statement for listed table `i`. When the statement for table `k` raises, exactly `k + 1` are issued; otherwise one per table. |
| Maintenance.DropTables | ec2-scripts/aurora-operation.py:155-181 | The helper always returns false. Without a connection it drops nothing. Otherwise statement `i` is `drop table <table i> cascade`. When the drop of table `k` raises, exactly `k + 1` are sent; otherwise one per table. |
| Maintenance.VacuumAnalyzeTables | ec2-scripts/aurora-operation.py:183-210 | The helper always returns false. Without a connection it vacuums nothing. Otherwise statement `i` is `VACUUM(FULL, ANALYZE, VERBOSE) <table i>`. When the statement for table `k` raises, exactly `k + 1` are sent; otherwise one per table. |
| Maintenance.StatementsDistinguishTables | ec2-scripts/aurora-operation.py:175-204 | Two tables get the same drop (or vacuum) statement only when they are the same table. |
| Operation.ReadCredentials | ec2-scripts/aurora-operation.py:315-317 | Reading the three credentials fails exactly when the secret is truthy and not a dict, and then with that secret as the object `.get` was called on. Otherwise the user name, password and port are the values the dict stores under `username`, `password` and `port`, each `None` when absent or when the secret is falsy. |
| Operation.IsRestore | ec2-scripts/aurora-operation.py:331 | The restore branch is taken only when the backup branch is not. |
| Operation.Main | ec2-scripts/aurora-operation.py:294-343 | The run reaches its last line exactly when the secret was fetched and reads as credentials, and it is not a backup whose dump left no directory. An exception from `get_secret`, or a truthy secret that is not a dict, stops it before any step. A `None` or other falsy secret goes on with `None` credentials. A completed run ends with the `{operation} for instance {cluster} operation complete` line. |
| Operation.StepOrder | ec2-scripts/aurora-operation.py:323-343 | Steps run in this order for each request: dump, roles, upload, cleanup for backup; check, optional drop, download, restore, vacuum for restore; otherwise the no-match message. The completion line comes last. |
| Operation.DropGatedOnCheck | ec2-scripts/aurora-operation.py:333-335 | A drop happens only as step 1, after an existence check that found the database in a restore. It always happens when the check found it. |
| Operation.BackupUsesOneTime | ec2-scripts/aurora-operation.py:319-330 | The dump directory, the role-dump key, the uploaded directory and every uploaded key are all named after the single start-up time. |
| Operation.RestoreReadsDownloadedDir | ec2-scripts/aurora-operation.py:331-338 | In every restore, some step downloads the prefix of the requested timestamp into `/tmp/{cluster}-{database}-{timestamp}`. The very next step restores from that same directory. |
| Operation.RestoreMatchesBackup | ec2-scripts/aurora-operation.py:242-292 | Restoring with the time a backup used fetches every file that backup uploaded, and nothing else, into the dump directory under its own name. The restore request must agree with the backup only in cluster and database; its endpoint, secret and region may differ. The bucket lists, in any order, those files beside other backups' files, role dumps and keys outside the `manual/` tree. Nothing else may sit in the backup's own folder, so a database named `roles` is excluded whenever its timestamp's role dump is present. The next step restores from that directory. |
| Discovery.LastWhere | gather-aurora-info.py:15-17 | The result is the last index satisfying the test, or none when no element does. |
| Discovery.GetInstanceInfo | gather-aurora-info.py:8-18 | No instance fails, and no subnet mentioning the zone fails. Otherwise the result is the first instance's zone and the last subnet whose text mentions it. |
| Discovery.SubstringMatchesOtherZone | gather-aurora-info.py:16 | A subnet of another zone whose text mentions the zone elsewhere is accepted too. |
| Discovery.EndpointFor | gather-aurora-info.py:29-37 | Backup gets the reader endpoint and restore the writer endpoint. |
| Discovery.PlaceLastInRole | gather-aurora-info.py:31-42 | The member loop succeeds exactly when some member has the role and every member with it is placed. The result is the placement of the last such member. |
| Discovery.GetClusterInfo | gather-aurora-info.py:20-43 | No cluster fails. Success holds exactly when some member has the role and every such member's lookup succeeds. The zone and subnet are those of the last such member. |
| Discovery.OutputRecord | gather-aurora-info.py:61 | The record has exactly the keys `az`, `endpoint` and `subnet_id`. |
| Discovery.OutputRecordReadsBack | gather-aurora-info.py:61 | Reading each key back gives the selected value. |
| Discovery.GatherAuroraInfo | gather-aurora-info.py:58-61 | The script succeeds exactly when discovery does, and fails with no cluster. The record holds exactly `az`, `endpoint` and `subnet_id`: the endpoint for the operation, and the zone and subnet of the last member in the required role. |
| Dispatch.TimestampArg | execute-ssm.py:64 | A missing timestamp is passed as `notime`, and a given one as itself. |
| Dispatch.CommandLine | execute-ssm.py:9 | The command line starts with the script name, then `-c` and the cluster, then `-d`. |
| Dispatch.CommandLineWords | execute-ssm.py:9 | With no space in any value, splitting the command line at spaces gives the script name and the eight flags with their values, in fixed order. |
| Dispatch.ScriptUrl | execute-ssm.py:10 | The URL is `https://`, the bucket, then the fixed object path. |
| Dispatch.ScriptUrlNamesBucket | execute-ssm.py:10 | Different buckets give different script URLs. |
| Dispatch.SendCommand | execute-ssm.py:14-32 | The command targets the one instance with the `AWS-RunRemoteScript` document and source type `S3`. Its source info is exactly `{"path": "<script URL>"}` for that bucket, and it sends the command line. Output goes to the `/aws/ssm/aurora-backup` log group with output enabled. |
| Dispatch.Poll | execute-ssm.py:34-46 | Polling stops at the first observation that is `Success`, or at a later one that is `Success`, `Failed`, `Cancelled` or `TimedOut`. A failed call aborts it. Every earlier observation lets it continue. |

## Left out

- The service calls themselves are not modelled. They are: Secrets Manager, the RDS describe calls, S3 listing, upload and download with their transfer configuration, SSM. Their answers are inputs.
- `pg_dump`, `pg_restore` and `pg_dumpall` are not modelled, nor the pipe into `aws s3 cp`. They are external processes. A dump's effect is the list of files it left, an input.
- A failure of `pg_dump`/`pg_restore` is not modelled. A non-zero exit status makes the helper return `None` silently; a raised exception is printed. Either way `main` ignores it, so the steps taken do not change.
- The roles pipe and its failure are not modelled. Neither process's exit status is checked, and only an exception while starting them is printed.
- The PostgreSQL connection string and the listing queries are not modelled. They are external. A helper's session is an input: refused, or the rows listed plus the row whose statement raised.
- The clock is not modelled. `get_time` becomes the `now` parameter.
- `get_date` is not modelled. Its result is never used.
- The secret's `port` is read but not used further. It changes no name or step.
- The exceptions `get_secret` lets escape are not told apart. Any exception from `get_secret` counts: for example a re-raised `ClientError`, a botocore error that is not a `ClientError` (`NoCredentialsError`, `EndpointConnectionError`), a `base64.b64decode` error or a `json.loads` error. Each is the absent secret (`None` in `Environment.secret`), which ends the run before any step.
- The secret's decoding is not modelled in detail. A binary secret decodes to bytes, represented as a string value, so every lookup fails. A `ClientError` whose code `get_secret` does not re-raise makes it return `None`, which is the `Null` secret, so every lookup gives `None`. JSON floats are left out: no contract depends on them.
- `time.sleep`, printing, file writing (`tmp/db.json`) and argparse's parsing and error exit are not modelled. They are I/O. Arguments arrive already parsed, with `operation` restricted to its two choices.
- Exceptions are not modelled where they escape: from the S3 listing during a restore, or from a describe call that fails. In `ssm_send_command` an exception from the submission or a status call is caught and printed; the polling model ends on it as `Aborted`. Only the failures that decide the traced outcome are modelled.
- Dispatch.CommandLineWords: the command line is defined as the words joined by single spaces rather than as the f-string's literal concatenation. The two agree by construction of the format, which puts exactly one space between fields.
- Dispatch.Poll: the `send_command` call's own failure is not part of the observations. The observations start with the first `get_command_invocation`.
- Operation.RestoreMatchesBackup: does not cover a database named `roles` whose timestamp's role dump is in the bucket. There the restore also fetches `roles.dump`, as `Naming.RolesKeyUnderPrefix` and `Transfer.RolesRestoreSelectsRoleDump` show, so the fetches are not exactly the uploaded files.
- Operation.Main: a per-object download or upload failure is caught and printed, and is not distinguished from success.

=== FILE: discovery.dfy ===
/** Endpoint, member and subnet selection of gather-aurora-info.py. The two
    describe calls are external: their responses are inputs, the per-instance
    one as a function from instance id to the `DBInstances` list. */
module Discovery {
  import opened Wrappers
  import opened Text
  import Json
  import opened Requests

  /** One entry of `DBClusterMembers`. */
  datatype Member = Member(instanceId: string, isWriter: bool)

  /** One entry of `DBClusters`. */
  datatype Cluster = Cluster(endpoint: string, readerEndpoint: string, members: seq<Member>)

  /** One entry of a subnet group's `Subnets`; `text` is its `str()` form,
      which shows (among the other fields) the subnet's zone name. */
  datatype Subnet = Subnet(identifier: string, zone: string, text: string)

  /** One entry of `DBInstances`. */
  datatype Instance = Instance(zone: string, subnets: seq<Subnet>)

  /** Ways the script fails with an uncaught exception. */
  datatype DiscoveryError =
    | NoCluster             // `DBClusters` is empty: IndexError
    | NoInstance(id: string) // `DBInstances` is empty: IndexError
    | NoSubnetInZone(zone: string) // `subnet_id` never assigned: UnboundLocalError
    | NoMemberWithRole      // `az` never assigned: UnboundLocalError

  /** Zone and subnet of one instance. */
  datatype Placement = Placement(az: string, subnetId: string)

  /** What `get_cluster_info` returns. */
  datatype ClusterInfo = ClusterInfo(endpoint: string, az: string, subnetId: string)

  /** The last index whose element satisfies `p`: a later match always
      replaces an earlier one. */
  function LastWhere<T>(s: seq<T>, p: T -> bool): (r: Option<nat>)
    ensures r.Some? ==> r.value < |s| && p(s[r.value]) && forall j :: r.value < j < |s| ==> !p(s[j])
    ensures r.None? ==> forall j :: 0 <= j < |s| ==> !p(s[j])
    decreases |s|
  {
    if s == [] then None
    else if p(s[|s| - 1]) then Some(|s| - 1)
    else LastWhere(s[..|s| - 1], p)
  }

  /** The subnet test of `get_instance_info`: the zone occurs anywhere in
      the subnet's text. */
  predicate MentionsZone(subnet: Subnet, az: string) {
    Contains(subnet.text, az)
  }

  /** `get_instance_info`: the zone of the first described instance and the
      identifier of the last of its subnets whose text mentions that zone. */
  function GetInstanceInfo(id: string, instances: seq<Instance>): (r: Result<Placement, DiscoveryError>)
    ensures instances == [] ==> r == Failure(NoInstance(id))
    ensures instances != [] ==>
      (r.Failure? <==> forall i :: 0 <= i < |instances[0].subnets| ==> !MentionsZone(instances[0].subnets[i], instances[0].zone))
    ensures r.Success? ==> instances != [] && r.value.az == instances[0].zone
    ensures r.Success? ==>
      exists i :: 0 <= i < |instances[0].subnets|
        && instances[0].subnets[i].identifier == r.value.subnetId
        && MentionsZone(instances[0].subnets[i], r.value.az)
        && forall j :: i < j < |instances[0].subnets| ==> !MentionsZone(instances[0].subnets[j], r.value.az)
  {
    if instances == [] then Failure(NoInstance(id))
    else
      var az := instances[0].zone;
      var subnets := instances[0].subnets;
      match LastWhere(subnets, s => MentionsZone(s, az))
      case None => Failure(NoSubnetInZone(az))
      case Some(i) => Success(Placement(az, subnets[i].identifier))
  }

  /** The substring test also passes subnets of another zone whose text
      mentions the zone elsewhere. */
  lemma SubstringMatchesOtherZone()
    ensures MentionsZone(Subnet("subnet-2", "us-east-1b", "{'Name': 'us-east-1b', 'Tag': 'us-east-1a'}"), "us-east-1a")
  {
    var t := "{'Name': 'us-east-1b', 'Tag': 'us-east-1a'}";
    assert t[31..41] == "us-east-1a";
    assert OccursAt(t, "us-east-1a", 31);
  }

  /** The role a member must have: a reader for backup, the writer for
      restore. */
  function WantsWriter(op: Operation): bool {
    op == Restore
  }

  /** The endpoint `get_cluster_info` returns for an operation. */
  function EndpointFor(cluster: Cluster, op: Operation): (e: string)
    ensures op == Backup ==> e == cluster.readerEndpoint
    ensures op == Restore ==> e == cluster.endpoint
  {
    if op == Backup then cluster.readerEndpoint else cluster.endpoint
  }

  /** Member `i` has the role the operation needs and no later member has
      it. */
  predicate LastInRole(op: Operation, members: seq<Member>, i: int) {
    && 0 <= i < |members|
    && members[i].isWriter == WantsWriter(op)
    && forall j :: i < j < |members| ==> members[j].isWriter != WantsWriter(op)
  }

  /** Some member has the role, and every member with it is described with
      a subnet in its zone. */
  predicate RoleMembersPlaced(op: Operation, members: seq<Member>, describe: string -> seq<Instance>) {
    && (exists i :: 0 <= i < |members| && members[i].isWriter == WantsWriter(op))
    && (forall i :: 0 <= i < |members| && members[i].isWriter == WantsWriter(op) ==>
          GetInstanceInfo(members[i].instanceId, describe(members[i].instanceId)).Success?)
  }

  /** Discovery succeeds: there is a cluster and its members in the role
      are placed. */
  predicate Discoverable(op: Operation, clusters: seq<Cluster>, describe: string -> seq<Instance>) {
    clusters != [] && RoleMembersPlaced(op, clusters[0].members, describe)
  }

  /** The member loop of `get_cluster_info`: describe every member in the
      role, in order, keeping the placement of the last one. */
  method PlaceLastInRole(op: Operation, members: seq<Member>, describe: string -> seq<Instance>)
    returns (r: Result<Placement, DiscoveryError>)
    ensures r.Success? <==> RoleMembersPlaced(op, members, describe)
    ensures r.Success? ==>
      exists i :: LastInRole(op, members, i)
        && GetInstanceInfo(members[i].instanceId, describe(members[i].instanceId)) == Success(r.value)
  {
    var want := WantsWriter(op);
    var last: Option<Placement> := None;
    ghost var lastIndex: nat := 0;
    var k := 0;
    while k < |members|
      invariant k <= |members|
      invariant forall i :: 0 <= i < k && members[i].isWriter == want ==>
                  GetInstanceInfo(members[i].instanceId, describe(members[i].instanceId)).Success?
      invariant last.None? ==> forall i :: 0 <= i < k ==> members[i].isWriter != want
      invariant last.Some? ==>
                  lastIndex < k && members[lastIndex].isWriter == want
                  && (forall j :: lastIndex < j < k ==> members[j].isWriter != want)
                  && GetInstanceInfo(members[lastIndex].instanceId, describe(members[lastIndex].instanceId)) == Success(last.value)
    {
      if members[k].isWriter == want {
        var info := GetInstanceInfo(members[k].instanceId, describe(members[k].instanceId));
        if info.Failure? {
          return Failure(info.error);
        }
        last := Some(info.value);
        lastIndex := k;
      }
      k := k + 1;
    }
    if last.None? {
      return Failure(NoMemberWithRole);
    }
    assert LastInRole(op, members, lastIndex);
    r := Success(last.value);
  }

  /** `get_cluster_info`: the endpoint for the operation, and the placement
      of the last member in the required role. Every member in that role is
      described in turn, so a failure on any of them fails the call. */
  method GetClusterInfo(op: Operation, clusters: seq<Cluster>, describe: string -> seq<Instance>)
    returns (r: Result<ClusterInfo, DiscoveryError>)
    ensures clusters == [] ==> r == Failure(NoCluster)
    ensures r.Success? ==> clusters != [] && r.value.endpoint == EndpointFor(clusters[0], op)
    ensures r.Success? <==> Discoverable(op, clusters, describe)
    ensures r.Success? ==>
      exists i :: LastInRole(op, clusters[0].members, i)
        && GetInstanceInfo(clusters[0].members[i].instanceId, describe(clusters[0].members[i].instanceId))
           == Success(Placement(r.value.az, r.value.subnetId))
  {
    if clusters == [] {
      return Failure(NoCluster);
    }
    var placed := PlaceLastInRole(op, clusters[0].members, describe);
    if placed.Failure? {
      return Failure(placed.error);
    }
    r := Success(ClusterInfo(EndpointFor(clusters[0], op), placed.value.az, placed.value.subnetId));
  }

  /** The record written to the output file: exactly `az`, `endpoint` and
      `subnet_id`, holding the selected values. */
  function OutputRecord(info: ClusterInfo): (record: Json.Value)
    ensures record.Obj? && record.fields.Keys == {"az", "endpoint", "subnet_id"}
  {
    Json.Obj(map["az" := Json.Str(info.az), "endpoint" := Json.Str(info.endpoint),
                 "subnet_id" := Json.Str(info.subnetId)])
  }

  /** Reading the output record back by key recovers each selected value. */
  lemma OutputRecordReadsBack(info: ClusterInfo)
    ensures Json.GetNested(OutputRecord(info), ["az"]) == Success(Json.Str(info.az))
    ensures Json.GetNested(OutputRecord(info), ["endpoint"]) == Success(Json.Str(info.endpoint))
    ensures Json.GetNested(OutputRecord(info), ["subnet_id"]) == Success(Json.Str(info.subnetId))
  {
    var record := OutputRecord(info);
    assert "az" in record.fields;
    Json.SingleKeyIsGet(record, "az");
    Json.SingleKeyIsGet(record, "endpoint");
    Json.SingleKeyIsGet(record, "subnet_id");
  }

  /** The whole script: discover, then emit the record, which holds the
      endpoint for the operation and the zone and subnet of the last member
      in the required role. */
  method GatherAuroraInfo(op: Operation, clusters: seq<Cluster>, describe: string -> seq<Instance>)
    returns (r: Result<Json.Value, DiscoveryError>)
    ensures clusters == [] ==> r == Failure(NoCluster)
    ensures r.Success? <==> Discoverable(op, clusters, describe)
    ensures r.Success? ==> r.value.Obj? && r.value.fields.Keys == {"az", "endpoint", "subnet_id"}
    ensures r.Success? ==> clusters != [] && r.value.Obj? && "endpoint" in r.value.fields
                           && r.value.fields["endpoint"] == Json.Str(EndpointFor(clusters[0], op))
    ensures r.Success? ==>
      exists i :: LastInRole(op, clusters[0].members, i)
        && GetInstanceInfo(clusters[0].members[i].instanceId, describe(clusters[0].members[i].instanceId)).Success?
        && r.value.Obj? && "az" in r.value.fields && "subnet_id" in r.value.fields
        && r.value.fields["az"]
           == Json.Str(GetInstanceInfo(clusters[0].members[i].instanceId, describe(clusters[0].members[i].instanceId)).value.az)
        && r.value.fields["subnet_id"]
           == Json.Str(GetInstanceInfo(clusters[0].members[i].instanceId, describe(clusters[0].members[i].instanceId)).value.subnetId)
  {
    var info := GetClusterInfo(op, clusters, describe);
    if info.Failure? {
      return Failure(info.error);
    }
    r := Success(OutputRecord(info.value));
  }
}

=== FILE: dispatch.dfy ===
/** execute-ssm.py: the command line and script location sent to the remote
    command service, and the loop that polls the command's status. The
    service calls are external: the statuses they report are inputs. */
module Dispatch {
  import Wrappers
  import opened Text
  import opened Requests

  /** The arguments of execute-ssm.py: those of the backup script plus the
      instance to run it on. */
  datatype SsmRequest = SsmRequest(request: Request, instance: string)

  /** What `--timestamp` stands for when it is not given. */
  const NoTime: string := "notime"

  /** The document that runs a script fetched from object storage. */
  const DocumentName: string := "AWS-RunRemoteScript"

  /** The log group the command's output goes to. */
  const LogGroup: string := "/aws/ssm/aurora-backup"

  /** The value passed with `-t`. */
  function TimestampArg(timestamp: Wrappers.Option<string>): (t: string)
    ensures timestamp.None? ==> t == NoTime
    ensures timestamp.Some? ==> t == timestamp.value
  {
    timestamp.GetOr(NoTime)
  }

  /** The worker script the command line runs. */
  const Script: string := "prepare-execute.sh"

  /** The words of the remote command line, in order: the script, then each
      flag followed by its value. */
  function CommandWords(r: Request): seq<string> {
    [ Script,
      "-c", r.cluster, "-d", r.database, "-o", OperationName(r.operation),
      "-b", r.bucket, "-s", r.secret, "-e", r.endpoint, "-r", r.region,
      "-t", TimestampArg(r.timestamp) ]
  }

  /** The command line as `ssm_send_command` formats it: the words joined
      by single spaces. */
  function CommandLine(r: Request): (line: string)
    ensures IsPrefix(Script + " " + ("-c" + " " + (r.cluster + " " + ("-d" + " "))), line)
  {
    var words := CommandWords(r);
    var rest := words[4..];
    assert words == [Script] + (["-c"] + ([r.cluster] + (["-d"] + rest)));
    JoinFirstWord("-d", rest);
    JoinFirstPrefix(r.cluster, "-d" + " ", ["-d"] + rest);
    JoinFirstPrefix("-c", r.cluster + " " + ("-d" + " "), [r.cluster] + (["-d"] + rest));
    JoinFirstPrefix(Script, "-c" + " " + (r.cluster + " " + ("-d" + " ")), ["-c"] + ([r.cluster] + (["-d"] + rest)));
    Join(words)
  }

  /** No argument value holds a space. */
  predicate Unspaced(r: Request) {
    && ' ' !in r.cluster && ' ' !in r.database && ' ' !in r.bucket && ' ' !in r.secret
    && ' ' !in r.endpoint && ' ' !in r.region && ' ' !in TimestampArg(r.timestamp)
  }

  /** When no value holds a space, splitting the command line at spaces gives
      back the script name and the eight flags with their values, in the
      fixed order -c -d -o -b -s -e -r -t. */
  lemma CommandLineWords(r: Request)
    requires Unspaced(r)
    ensures Split(CommandLine(r)) == CommandWords(r)
    ensures |Split(CommandLine(r))| == 17
  {
    SplitJoin(CommandWords(r));
  }

  /** What precedes the bucket in the script URL. */
  const UrlHead: string := "https://"

  /** What follows the bucket in the script URL: the host suffix and the
      script's key. */
  const UrlTail: string := ".s3.amazonaws.com/ec2-scripts/prepare-execute.sh"

  /** `https://{bucket}.s3.amazonaws.com/ec2-scripts/prepare-execute.sh`. */
  function ScriptUrl(bucket: string): (url: string)
    ensures |url| == |UrlHead| + |bucket| + |UrlTail|
    ensures url[..|UrlHead|] == UrlHead && url[|UrlHead|..|UrlHead| + |bucket|] == bucket
    ensures url[|UrlHead| + |bucket|..] == UrlTail
  {
    UrlHead + bucket + UrlTail
  }

  /** Each bucket has its own script location. */
  lemma ScriptUrlNamesBucket(bucket: string, bucket': string)
    requires ScriptUrl(bucket) == ScriptUrl(bucket')
    ensures bucket == bucket'
  {
    var url := ScriptUrl(bucket);
    assert bucket == url[|UrlHead|..|UrlHead| + |bucket|] == bucket';
  }

  /** The parameters of the `send_command` call. */
  datatype Submission = Submission(
    instanceIds: seq<string>,
    document: string,
    sourceType: string,
    sourceInfo: string,
    commandLine: string,
    logGroup: string,
    outputEnabled: bool)

  /** The JSON text around the script URL in the source info:
      `{"path": "<url>"}`. */
  const PathOpen: string := "{\"path\": \""
  const PathClose: string := "\"}"

  /** The source type of a script fetched from object storage. */
  const SourceType: string := "S3"

  /** What `ssm_send_command` submits: the remote-script document with an
      object-storage source, the source info `{"path": "<script URL>"}`,
      the command line, and output capture to the fixed log group. */
  function SendCommand(req: SsmRequest): (s: Submission)
    ensures s.instanceIds == [req.instance]
    ensures s.document == DocumentName && s.sourceType == SourceType
    ensures var url := ScriptUrl(req.request.bucket);
            && |s.sourceInfo| == |PathOpen| + |url| + |PathClose|
            && s.sourceInfo[..|PathOpen|] == PathOpen
            && s.sourceInfo[|PathOpen|..|PathOpen| + |url|] == url
            && s.sourceInfo[|PathOpen| + |url|..] == PathClose
    ensures Contains(s.sourceInfo, ScriptUrl(req.request.bucket))
    ensures s.commandLine == CommandLine(req.request)
    ensures s.logGroup == LogGroup && s.outputEnabled
  {
    var url := ScriptUrl(req.request.bucket);
    var info := PathOpen + url + PathClose;
    assert info[|PathOpen|..|PathOpen| + |url|] == url;
    assert OccursAt(info, url, |PathOpen|);
    Submission([req.instance], DocumentName, SourceType, info, CommandLine(req.request), LogGroup, true)
  }

  /** The statuses a command invocation reports. */
  datatype Status = Pending | InProgress | Delayed | Success | Cancelled | TimedOut | Failed | Cancelling

  /** What one `get_command_invocation` call yields: a status, or an
      exception, which the surrounding `except` catches and which ends the
      polling. */
  datatype Observation = Reported(status: Status) | CallFailed

  /** How the polling ended within the observations given: stopped on a
      status, aborted by a failed call, or still polling when they ran out. */
  datatype PollOutcome = Stopped(status: Status) | Aborted | StillPolling

  /** The statuses that end the loop after a later poll. */
  predicate Terminal(s: Status) {
    s == Success || s == Failed || s == Cancelled || s == TimedOut
  }

  /** Observation `j` ends the loop: the first observation only when it is
      Success (it is only tested by the loop condition), a later one when it
      is any terminal status. */
  predicate StopsAt(obs: seq<Observation>, j: nat)
    requires j < |obs|
  {
    obs[j].Reported? && (if j == 0 then obs[j].status == Success else Terminal(obs[j].status))
  }

  /** Observation `j` lets the loop go on. */
  predicate ContinuesAt(obs: seq<Observation>, j: nat)
    requires j < |obs|
  {
    obs[j].Reported? && !StopsAt(obs, j)
  }

  /** The polling loop of `ssm_send_command` run over the observations the
      service would give, in order; `calls` is how many it consumed. There is
      no poll ceiling: the loop ends only on a stopping status or a failed
      call. */
  method Poll(obs: seq<Observation>) returns (calls: nat, outcome: PollOutcome)
    ensures calls <= |obs|
    ensures forall j :: 0 <= j < calls - 1 ==> ContinuesAt(obs, j)
    ensures outcome.Stopped? <==> calls > 0 && StopsAt(obs, calls - 1)
    ensures outcome.Stopped? ==> obs[calls - 1] == Reported(outcome.status)
    ensures outcome.Aborted? <==> calls > 0 && obs[calls - 1].CallFailed?
    ensures outcome.StillPolling? <==> calls == |obs| && forall j :: 0 <= j < |obs| ==> ContinuesAt(obs, j)
  {
    if |obs| == 0 {
      return 0, StillPolling;
    }
    calls := 1;
    if obs[0].CallFailed? {
      assert !ContinuesAt(obs, 0);
      return calls, Aborted;
    }
    var status := obs[0].status;
    while status != Success
      invariant 1 <= calls <= |obs|
      invariant obs[calls - 1] == Reported(status)
      invariant forall j :: 0 <= j < calls - 1 ==> ContinuesAt(obs, j)
      invariant calls > 1 ==> !Terminal(status) || status == Success
      decreases |obs| - calls
    {
      if calls == |obs| {
        return calls, StillPolling;
      }
      var next := obs[calls];
      calls := calls + 1;
      if next.CallFailed? {
        assert !ContinuesAt(obs, calls - 1);
        return calls, Aborted;
      }
      status := next.status;
      if status == Failed || status == Cancelled || status == TimedOut {
        assert !ContinuesAt(obs, calls - 1);
        return calls, Stopped(status);
      }
    }
    assert !ContinuesAt(obs, calls - 1);
    outcome := Stopped(status);
  }
}

=== FILE: json.dfy ===
/** JSON-like values as `json.loads` returns them, Python truthiness, and the
    `get_nested` helper of the backup script (ec2-scripts/aurora-operation.py). */
module Json {
  import opened Wrappers

  /** A decoded JSON value; `Null` also stands for Python's `None`.
      Numbers are restricted to integers. */
  datatype Value =
    | Null
    | Bool(b: bool)
    | Num(n: int)
    | Str(s: string)
    | Arr(items: seq<Value>)
    | Obj(fields: map<string, Value>)

  /** Python truthiness: `None`, `False`, `0` and empty strings, lists and
      dicts are false, everything else is true. */
  predicate Truthy(v: Value) {
    match v
    case Null => false
    case Bool(b) => b
    case Num(n) => n != 0
    case Str(s) => s != ""
    case Arr(items) => items != []
    case Obj(fields) => fields != map[]
  }

  /** Calling `.get` on anything but a dict raises `AttributeError`. */
  datatype LookupError = NotAMapping(target: Value)

  /** `data.get(key)`: the stored value, `None` for an absent key. */
  function Get(data: Value, key: string): Result<Value, LookupError> {
    match data
    case Obj(fields) => Success(if key in fields then fields[key] else Null)
    case _ => Failure(NotAMapping(data))
  }

  /** `get_nested(data, *keys)`: walks `data` along `keys`, giving `None`
      as soon as the keys run out, the current value is falsy or the current
      key is the empty string. */
  function GetNested(data: Value, keys: seq<string>): (r: Result<Value, LookupError>)
    ensures keys == [] || !Truthy(data) || keys[0] == "" ==> r == Success(Null)
    ensures r.Failure? ==> exists v :: Truthy(v) && !v.Obj? && r == Failure(NotAMapping(v))
    ensures |keys| > 0 && Truthy(data) && !data.Obj? && keys[0] != "" ==> r == Failure(NotAMapping(data))
    decreases |keys|
  {
    if |keys| > 0 && Truthy(data) then
      if keys[0] != "" then
        var value :- Get(data, keys[0]);
        if |keys| == 1 then Success(value) else GetNested(value, keys[1..])
      else Success(Null)
    else Success(Null)
  }

  /** The reference reading of a walk: single-key lookups applied left to
      right, the first failure kept. */
  function FoldLookups(acc: Result<Value, LookupError>, keys: seq<string>): Result<Value, LookupError>
    decreases |keys|
  {
    if keys == [] then acc
    else match acc
      case Failure(_) => acc
      case Success(v) => FoldLookups(GetNested(v, [keys[0]]), keys[1..])
  }

  /** A single non-empty key on a dict is exactly `dict.get`. */
  lemma SingleKeyIsGet(data: Value, key: string)
    requires data.Obj? && data.fields != map[] && key != ""
    ensures GetNested(data, [key]) == Success(if key in data.fields then data.fields[key] else Null)
  {
  }

  /** Once the walk has produced `None`, every further lookup keeps it. */
  lemma {:induction false} NullAbsorbs(keys: seq<string>)
    ensures FoldLookups(Success(Null), keys) == Success(Null)
    decreases |keys|
  {
    if keys != [] {
      NullAbsorbs(keys[1..]);
    }
  }

  /** `get_nested` with at least one key is the left-to-right fold of single
      lookups; with no keys it is `None`. */
  lemma {:induction false} GetNestedIsFold(data: Value, keys: seq<string>)
    requires keys != []
    ensures GetNested(data, keys) == FoldLookups(Success(data), keys)
    decreases |keys|
  {
    if !Truthy(data) || keys[0] == "" {
      NullAbsorbs(keys[1..]);
    } else if |keys| > 1 {
      match Get(data, keys[0])
      case Failure(_) =>
      case Success(v) =>
        GetNestedIsFold(v, keys[1..]);
    }
  }

  /** Following a path through nested dicts reaches the value stored at its
      end. */
  lemma {:induction false} GetNestedFollowsPath(data: Value, keys: seq<string>, leaf: Value)
    requires keys != []
    requires forall i :: 0 <= i < |keys| ==> keys[i] != ""
    requires PathLeadsTo(data, keys, leaf)
    ensures GetNested(data, keys) == Success(leaf)
    decreases |keys|
  {
    if |keys| > 1 {
      GetNestedFollowsPath(data.fields[keys[0]], keys[1..], leaf);
    }
  }

  /** `data` is a dict holding `keys[0]`, whose value holds `keys[1]`, and so
      on, ending at `leaf`. */
  predicate PathLeadsTo(data: Value, keys: seq<string>, leaf: Value)
    decreases |keys|
  {
    if keys == [] then data == leaf
    else data.Obj? && keys[0] in data.fields && PathLeadsTo(data.fields[keys[0]], keys[1..], leaf)
  }
}

=== FILE: maintenance.dfy ===
/** The three query helpers of ec2-scripts/aurora-operation.py: the
    existence check, dropping every public table, and vacuum/analyze of
    every public table. Connections and queries are external; what the
    database answers is an input. */
module Maintenance {
  import opened Wrappers

  /** What one helper's connection yields: the connection was refused (the
      helper catches it and does nothing), or the listing query returned
      `rows` and, optionally, the statement issued for row `failsAt` raised,
      which ends the loop. A row is the name the helper reads from it: the
      database name for the existence check, the `table_name` column for the
      drop and vacuum helpers. */
  datatype Session = Refused | Open(rows: seq<string>, failsAt: Option<nat>)

  /** `check_existing_db`: true iff some listed database name equals the
      target exactly; false when no connection was obtained. */
  function DatabaseExists(session: Session, name: string): (found: bool)
    ensures found <==> session.Open? && exists i :: 0 <= i < |session.rows| && session.rows[i] == name
  {
    match session
    case Refused => false
    case Open(rows, _) => AnyEquals(rows, name)
  }

  /** The loop of `check_existing_db`: every row is compared and a match
      sets the flag; nothing ever clears it. */
  function AnyEquals(rows: seq<string>, name: string): (found: bool)
    ensures found <==> exists i :: 0 <= i < |rows| && rows[i] == name
    decreases |rows|
  {
    if rows == [] then false
    else
      var rest := AnyEquals(rows[1..], name);
      assert forall i :: 1 <= i < |rows| ==> rows[i] == rows[1..][i - 1];
      rows[0] == name || rest
  }

  /** Which per-table statement a helper issues. */
  datatype Kind = Drop | Vacuum

  /** The statement issued for one table. */
  function Statement(kind: Kind, table: string): string {
    match kind
    case Drop => "drop table " + table + " cascade"
    case Vacuum => "VACUUM(FULL, ANALYZE, VERBOSE) " + table
  }

  /** The table a statement names. */
  function TableOf(kind: Kind, statement: string): string {
    match kind
    case Drop =>
      if |statement| >= |"drop table "| + |" cascade"|
      then statement[|"drop table "|..|statement| - |" cascade"|] else ""
    case Vacuum =>
      if |statement| >= |"VACUUM(FULL, ANALYZE, VERBOSE) "|
      then statement[|"VACUUM(FULL, ANALYZE, VERBOSE) "|..] else ""
  }

  /** Each statement names its table: distinct tables give distinct
      statements. */
  lemma StatementNamesTable(kind: Kind, table: string)
    ensures TableOf(kind, Statement(kind, table)) == table
  {
    var s := Statement(kind, table);
    match kind
    case Drop =>
      assert s[|"drop table "|..|s| - |" cascade"|] == table;
    case Vacuum =>
      assert s[|"VACUUM(FULL, ANALYZE, VERBOSE) "|..] == table;
  }

  /** One statement per listed table, in listing order. */
  function Statements(kind: Kind, tables: seq<string>): (r: seq<string>)
    ensures |r| == |tables|
    ensures forall i :: 0 <= i < |tables| ==> r[i] == Statement(kind, tables[i])
    ensures forall i :: 0 <= i < |tables| ==> TableOf(kind, r[i]) == tables[i]
    decreases |tables|
  {
    if tables == [] then []
    else
      StatementNamesTable(kind, tables[0]);
      [Statement(kind, tables[0])] + Statements(kind, tables[1..])
  }

  /** The statements a helper sends: none without a connection; otherwise
      the statement of each listed table in order, stopping after the one
      that raised. */
  function Issued(kind: Kind, session: Session): (r: seq<string>)
    ensures session.Refused? ==> r == []
    ensures session.Open? ==> forall i :: 0 <= i < |r| ==> i < |session.rows| && r[i] == Statement(kind, session.rows[i])
    ensures session.Open? && session.failsAt.Some? && session.failsAt.value < |session.rows|
            ==> |r| == session.failsAt.value + 1
    ensures session.Open? && (session.failsAt.None? || session.failsAt.value >= |session.rows|)
            ==> |r| == |session.rows|
  {
    match session
    case Refused => []
    case Open(rows, failsAt) =>
      var n := if failsAt.Some? && failsAt.value < |rows| then failsAt.value + 1 else |rows|;
      Statements(kind, rows)[..n]
  }

  /** What a drop or vacuum helper did: the statements it sent and the value
      it returned. */
  datatype Outcome = Outcome(issued: seq<string>, returned: bool)

  /** `drop_tables`: drops each public table with CASCADE, in listing order,
      until a drop raises; its flag is never set, so it returns false. */
  function DropTables(session: Session): (o: Outcome)
    ensures !o.returned
    ensures session.Refused? ==> o.issued == []
    ensures session.Open? ==> forall i :: 0 <= i < |o.issued| ==>
              i < |session.rows| && o.issued[i] == "drop table " + session.rows[i] + " cascade"
    ensures session.Open? && session.failsAt.Some? && session.failsAt.value < |session.rows|
            ==> |o.issued| == session.failsAt.value + 1
    ensures session.Open? && (session.failsAt.None? || session.failsAt.value >= |session.rows|)
            ==> |o.issued| == |session.rows|
  {
    Outcome(Issued(Drop, session), false)
  }

  /** `vacuum_analyze_tables`: a full vacuum and analyze of each public
      table, in listing order, until one raises; it too returns false. */
  function VacuumAnalyzeTables(session: Session): (o: Outcome)
    ensures !o.returned
    ensures session.Refused? ==> o.issued == []
    ensures session.Open? ==> forall i :: 0 <= i < |o.issued| ==>
              i < |session.rows| && o.issued[i] == "VACUUM(FULL, ANALYZE, VERBOSE) " + session.rows[i]
    ensures session.Open? && session.failsAt.Some? && session.failsAt.value < |session.rows|
            ==> |o.issued| == session.failsAt.value + 1
    ensures session.Open? && (session.failsAt.None? || session.failsAt.value >= |session.rows|)
            ==> |o.issued| == |session.rows|
  {
    Outcome(Issued(Vacuum, session), false)
  }

  /** Distinct tables get distinct statements, so the statements sent tell
      which tables were touched. */
  lemma StatementsDistinguishTables(kind: Kind, t: string, t': string)
    requires Statement(kind, t) == Statement(kind, t')
    ensures t == t'
  {
    StatementNamesTable(kind, t);
    StatementNamesTable(kind, t');
  }
}

=== FILE: naming.dfy ===
/** Where a backup lives: the local dump directory and the object-storage
    keys, as ec2-scripts/aurora-operation.py formats them. The same rule is
    used with the current time when backing up and with the supplied
    timestamp when restoring, so restore reads back what backup wrote. */
module Naming {
  import opened Text

  /** The backup type both branches of `main` use. */
  const BackupType: string := "manual"

  /** The directory every dump directory lies in. */
  const TmpRoot: string := "/tmp/"

  /** `/tmp/{cluster}-{database}-{time}`: the directory the dump writes,
      the upload reads and removes, the download fills and the restore reads. */
  function LocalDir(cluster: string, database: string, time: string): (dir: string)
    ensures IsPrefix(TmpRoot, dir)
    ensures |dir| == |TmpRoot| + |cluster| + |database| + |time| + 2
    ensures dir[|dir| - |time| - 1] == '-' && dir[|dir| - |time|..] == time
  {
    var dir := TmpRoot + cluster + "-" + database + "-" + time;
    assert dir[|dir| - |time|..] == time;
    assert dir[..|TmpRoot|] == TmpRoot;
    dir
  }

  /** `{backup_type}/{cluster}/{database}/{time}/{file_name}`: the key one
      dumped file is uploaded under. */
  function ObjectKey(backupType: string, cluster: string, database: string, time: string, fileName: string): (key: string)
    ensures |key| == |backupType| + |cluster| + |database| + |time| + |fileName| + 4
    ensures key[|key| - |fileName|..] == fileName && key[|key| - |fileName| - 1] == '/'
  {
    var key := backupType + "/" + cluster + "/" + database + "/" + time + "/" + fileName;
    assert key[|key| - |fileName|..] == fileName;
    key
  }

  /** `{backup_type}/{cluster}/{database}/{time}`: the prefix the download
      lists. */
  function ObjectPrefix(backupType: string, cluster: string, database: string, time: string): (prefix: string)
    ensures IsPrefix(backupType + "/", prefix)
    ensures |prefix| == |backupType| + |cluster| + |database| + |time| + 3
  {
    var prefix := backupType + "/" + cluster + "/" + database + "/" + time;
    assert prefix == (backupType + "/") + (cluster + "/" + database + "/" + time);
    prefix
  }

  /** `{backup_type}/{cluster}/roles/{time}/roles.dump`: where the role dump
      is streamed. */
  function RolesKey(backupType: string, cluster: string, time: string): (key: string)
    ensures key == ObjectKey(backupType, cluster, "roles", time, "roles.dump")
  {
    backupType + "/" + cluster + "/roles/" + time + "/roles.dump"
  }

  /** Dump directories of one cluster and database differ exactly when
      their times differ. */
  lemma LocalDirSeparatesTimes(cluster: string, database: string, time: string, time': string)
    ensures LocalDir(cluster, database, time) == LocalDir(cluster, database, time') <==> time == time'
  {
    var head := TmpRoot + cluster + "-" + database + "-";
    assert LocalDir(cluster, database, time) == head + time;
    assert LocalDir(cluster, database, time') == head + time';
    if LocalDir(cluster, database, time) == LocalDir(cluster, database, time') {
      DropCommon(head, time, time');
    }
  }

  /** Every uploaded key is the download prefix of the same backup, a '/',
      and the file name; so it starts with that prefix. */
  lemma KeyExtendsPrefix(backupType: string, cluster: string, database: string, time: string, fileName: string)
    ensures ObjectKey(backupType, cluster, database, time, fileName)
         == ObjectPrefix(backupType, cluster, database, time) + "/" + fileName
    ensures IsPrefix(ObjectPrefix(backupType, cluster, database, time),
                     ObjectKey(backupType, cluster, database, time, fileName))
  {
    var p := ObjectPrefix(backupType, cluster, database, time);
    assert (p + "/" + fileName)[..|p|] == p;
  }

  /** The download names a file after the last segment of its key, which
      is the uploaded file name when that name holds no '/'. */
  lemma FileNameRoundTrip(backupType: string, cluster: string, database: string, time: string, fileName: string)
    requires '/' !in fileName
    ensures LastSegment(ObjectKey(backupType, cluster, database, time, fileName)) == fileName
  {
    KeyExtendsPrefix(backupType, cluster, database, time, fileName);
    LastSegmentOfJoin(ObjectPrefix(backupType, cluster, database, time), fileName);
  }

  /** Where the '/' of a joined string sits, and what precedes it. */
  lemma SlashAfter(a: string, x: string)
    ensures (a + "/" + x)[|a|] == '/'
    ensures forall i :: 0 <= i < |a| ==> (a + "/" + x)[i] == a[i]
  {
  }

  /** Two '/'-joined strings agree only when their first segments agree. */
  lemma SplitAtSlash(a: string, x: string, b: string, y: string)
    requires '/' !in a && '/' !in b
    requires a + "/" + x == b + "/" + y
    ensures a == b && x == y
  {
    var s := a + "/" + x;
    SlashAfter(a, x);
    SlashAfter(b, y);
    if |a| < |b| {
      assert false;
    } else if |b| < |a| {
      assert false;
    }
    assert a == s[..|a|] == b;
    assert x == s[|a| + 1..] == y;
  }

  /** An object key, grouped from the right: one '/'-separated component
      at a time. */
  lemma ObjectKeyShape(backupType: string, cluster: string, database: string, time: string, fileName: string)
    ensures ObjectKey(backupType, cluster, database, time, fileName)
         == backupType + "/" + (cluster + "/" + (database + "/" + (time + "/" + fileName)))
  {
  }

  /** The download prefix followed by any text, grouped the same way. */
  lemma PrefixShape(backupType: string, cluster: string, database: string, time: string, rest: string)
    ensures ObjectPrefix(backupType, cluster, database, time) + rest
         == backupType + "/" + (cluster + "/" + (database + "/" + (time + rest)))
  {
  }

  /** The role-dump key, grouped the same way. */
  lemma RolesKeyShape(backupType: string, cluster: string, time: string)
    ensures RolesKey(backupType, cluster, time)
         == backupType + "/" + (cluster + "/" + ("roles" + "/" + (time + "/roles.dump")))
  {
  }

  /** Keys whose components hold no '/' identify their backup and file:
      distinct backups never write the same key. */
  lemma KeyIdentifiesBackup(
    backupType: string, cluster: string, database: string, time: string, fileName: string,
    backupType': string, cluster': string, database': string, time': string, fileName': string)
    requires '/' !in backupType && '/' !in cluster && '/' !in database && '/' !in time
    requires '/' !in backupType' && '/' !in cluster' && '/' !in database' && '/' !in time'
    requires ObjectKey(backupType, cluster, database, time, fileName)
          == ObjectKey(backupType', cluster', database', time', fileName')
    ensures backupType == backupType' && cluster == cluster' && database == database'
    ensures time == time' && fileName == fileName'
  {
    ObjectKeyShape(backupType, cluster, database, time, fileName);
    ObjectKeyShape(backupType', cluster', database', time', fileName');
    var q := database + "/" + (time + "/" + fileName);
    var q' := database' + "/" + (time' + "/" + fileName');
    SplitAtSlash(backupType, cluster + "/" + q, backupType', cluster' + "/" + q');
    SplitAtSlash(cluster, q, cluster', q');
    SplitAtSlash(database, time + "/" + fileName, database', time' + "/" + fileName');
    SplitAtSlash(time, fileName, time', fileName');
  }

  /** The download of one backup never picks up a file of another backup
      of the same database whose timestamp has the same length (as every
      timestamp formatted by `get_time` does). */
  lemma PrefixSelectsOwnTimestamp(backupType: string, cluster: string, database: string, time: string, time': string, fileName: string)
    requires |time| == |time'|
    requires IsPrefix(ObjectPrefix(backupType, cluster, database, time),
                      ObjectKey(backupType, cluster, database, time', fileName))
    ensures time == time'
  {
    var head := backupType + "/" + cluster + "/" + database + "/";
    var p := ObjectPrefix(backupType, cluster, database, time);
    var k := ObjectKey(backupType, cluster, database, time', fileName);
    assert p == head + time;
    assert k == head + time' + "/" + fileName;
    assert time == p[|head|..] == k[|head|..|head| + |time|] == time';
  }

  /** The download prefix carries no trailing '/': a timestamp that is a
      proper prefix of another backup's timestamp also lists that backup. */
  lemma PrefixNotDelimited()
    ensures IsPrefix(ObjectPrefix("manual", "clu02", "db3", "2024"),
                     ObjectKey("manual", "clu02", "db3", "20240101T000000Z", "toc.dat"))
  {
    var p := ObjectPrefix("manual", "clu02", "db3", "2024");
    var k := ObjectKey("manual", "clu02", "db3", "20240101T000000Z", "toc.dat");
    assert k == p + "0101T000000Z/toc.dat";
    assert k[..|p|] == p;
  }

  /** The role dump of a backup falls under the download prefix of a
      database at the same time exactly when that database is named
      `roles`. */
  lemma RolesKeyUnderPrefix(backupType: string, cluster: string, database: string, time: string)
    requires '/' !in database
    ensures IsPrefix(ObjectPrefix(backupType, cluster, database, time), RolesKey(backupType, cluster, time))
        <==> database == "roles"
  {
    var head := backupType + "/" + cluster + "/";
    var p := ObjectPrefix(backupType, cluster, database, time);
    var k := RolesKey(backupType, cluster, time);
    if database == "roles" {
      RolesKeyExtendsPrefix(backupType, cluster, time);
    } else if IsPrefix(p, k) {
      var rest := k[|p|..];
      assert k == p + rest;
      HeadShapes(backupType, cluster, database, time, rest);
      DropCommon(head, database + "/" + (time + rest), "roles" + "/" + (time + "/roles.dump"));
      SplitAtSlash(database, time + rest, "roles", time + "/roles.dump");
    }
  }

  /** The role dump sits under the prefix of a database named `roles`. */
  lemma RolesKeyExtendsPrefix(backupType: string, cluster: string, time: string)
    ensures IsPrefix(ObjectPrefix(backupType, cluster, "roles", time), RolesKey(backupType, cluster, time))
  {
    var p := ObjectPrefix(backupType, cluster, "roles", time);
    assert RolesKey(backupType, cluster, time) == p + "/roles.dump";
  }

  /** A prefix with its continuation, and the role dump, after their common
      `{backup_type}/{cluster}/`. */
  lemma HeadShapes(backupType: string, cluster: string, database: string, time: string, rest: string)
    ensures ObjectPrefix(backupType, cluster, database, time) + rest
         == (backupType + "/" + cluster + "/") + (database + "/" + (time + rest))
    ensures RolesKey(backupType, cluster, time)
         == (backupType + "/" + cluster + "/") + ("roles" + "/" + (time + "/roles.dump"))
  {
  }

  /** A common start can be taken off both sides of an equation. */
  lemma DropCommon(head: string, x: string, y: string)
    requires head + x == head + y
    ensures x == y
  {
    assert x == (head + x)[|head|..];
  }

  /** An object in the bucket, stored the way the scripts store what they
      write: under `{backup_type}/{cluster}/{folder}/{time}/{name}`. A
      dumped file's folder is its database and its name the file's name;
      a role dump's folder is `roles` and its name `roles.dump`. The bucket
      may hold objects of any cluster, folder and time. */
  datatype StoredObject = StoredObject(cluster: string, folder: string, time: string, name: string)

  /** The role dump `perform_roles_backup` streams for `cluster` at `time`. */
  function RolesDump(cluster: string, time: string): StoredObject {
    StoredObject(cluster, "roles", time, "roles.dump")
  }

  /** The key an object is stored under. */
  function StoredKey(backupType: string, o: StoredObject): string {
    ObjectKey(backupType, o.cluster, o.folder, o.time, o.name)
  }

  /** The role dump is stored under the key the roles pipe writes to. */
  lemma RolesDumpStoredAtRolesKey(backupType: string, cluster: string, time: string)
    ensures StoredKey(backupType, RolesDump(cluster, time)) == RolesKey(backupType, cluster, time)
  {
    RolesKeyShape(backupType, cluster, time);
    ObjectKeyShape(backupType, cluster, "roles", time, "roles.dump");
  }

  /** The object's cluster and folder hold no '/', and its timestamp has
      `width` characters, as every timestamp `get_time` formats has. */
  predicate WellNamed(o: StoredObject, width: nat) {
    '/' !in o.cluster && '/' !in o.folder && |o.time| == width
  }

  /** What a download prefix selects among well-named objects: only
      objects of that very cluster, folder and timestamp. So the role dump
      is selected only when the database is named `roles`. */
  lemma PrefixPinsObject(backupType: string, cluster: string, database: string, time: string, o: StoredObject)
    requires '/' !in backupType && '/' !in cluster && '/' !in database
    requires WellNamed(o, |time|)
    requires IsPrefix(ObjectPrefix(backupType, cluster, database, time), StoredKey(backupType, o))
    ensures o.cluster == cluster && o.folder == database && o.time == time
  {
    var k := StoredKey(backupType, o);
    var rest := k[|ObjectPrefix(backupType, cluster, database, time)|..];
    PrefixShape(backupType, cluster, database, time, rest);
    var x := database + "/" + (time + rest);
    ObjectKeyShape(backupType, o.cluster, o.folder, o.time, o.name);
    var x' := o.folder + "/" + (o.time + "/" + o.name);
    SplitAtSlash(backupType, cluster + "/" + x, backupType, o.cluster + "/" + x');
    SplitAtSlash(cluster, x, o.cluster, x');
    SplitAtSlash(database, time + rest, o.folder, o.time + "/" + o.name);
    assert time == (time + rest)[..|time|] == (o.time + "/" + o.name)[..|o.time|] == o.time;
  }

  /** The local directory joins cluster and database with '-', so two
      different clusters can share a dump directory. */
  lemma LocalDirAmbiguous(time: string)
    ensures LocalDir("clu-02", "db3", time) == LocalDir("clu", "02-db3", time)
  {
  }
}

=== FILE: operation.dfy ===
/** The `main` dispatch of ec2-scripts/aurora-operation.py as a pure function
    from the request, the one timestamp taken at start-up and the answers of
    the external services to the trace of steps the script performs. */
module Operation {
  import opened Wrappers
  import opened Text
  import Json
  import opened Requests
  import opened Naming
  import opened Transfer
  import opened Maintenance

  /** One step of a run, carrying the names it works on. */
  datatype Step =
    | DumpDatabase(dir: string)
    | DumpRoles(key: string)
    | Upload(dir: string, keys: seq<string>)
    | RemoveLocal(dir: string)
    | CheckExists(found: bool)
    | DropAll(statements: seq<string>)
    | Download(prefix: string, dir: string, fetches: seq<Fetch>)
    | RestoreDatabase(dir: string)
    | VacuumAll(statements: seq<string>)
    | NoOperationMatched
    | Complete(line: string)

  /** The answers of everything outside the script during one run. */
  datatype Environment = Environment(
    secret: Option<Json.Value>,  // what `get_secret` returned; None when it raised
    existing: Session,       // the connection of `check_existing_db`
    dropping: Session,       // the connection of `drop_tables`
    vacuuming: Session,      // the connection of `vacuum_analyze_tables`
    dumped: Option<seq<string>>,  // names of the files under the dump directory, None if it is absent
    listing: seq<string>)    // the object keys in the bucket, in listing order

  /** The credential fields read from the secret. */
  datatype Credentials = Credentials(username: Json.Value, password: Json.Value, port: Json.Value)

  /** A run: the steps taken and whether the script reached its last line
      (false when an exception escaped `main`). */
  datatype Run = Run(steps: seq<Step>, completed: bool)

  /** `{operation} for instance {cluster} operation complete`. */
  function CompletionLine(req: Request): string {
    OperationName(req.operation) + " for instance " + req.cluster + " operation complete"
  }

  /** The three `get_nested` lookups on the secret; they fail together when
      the secret is a truthy value that is not a dict. */
  function ReadCredentials(secret: Json.Value): (r: Result<Credentials, Json.LookupError>)
    ensures r.Success? <==> !Json.Truthy(secret) || secret.Obj?
    ensures r.Failure? ==> r.error == Json.NotAMapping(secret)
    ensures r.Success? ==> r.value.username == FieldOrNull(secret, "username")
    ensures r.Success? ==> r.value.password == FieldOrNull(secret, "password")
    ensures r.Success? ==> r.value.port == FieldOrNull(secret, "port")
  {
    var username := Json.GetNested(secret, ["username"]);
    var password := Json.GetNested(secret, ["password"]);
    var port := Json.GetNested(secret, ["port"]);
    if username.Success? && password.Success? && port.Success? then
      Success(Credentials(username.value, password.value, port.value))
    else Failure(FirstError(username, password, port))
  }

  /** The error of the first lookup that failed, as the first `get_nested`
      call to raise ends `main`. */
  function FirstError<T, E>(a: Result<T, E>, b: Result<T, E>, c: Result<T, E>): E
    requires a.Failure? || b.Failure? || c.Failure?
  {
    if a.Failure? then a.error else if b.Failure? then b.error else c.error
  }

  /** The value a dict secret stores under `key`, `None` when it stores
      nothing there or the secret is not a dict. */
  function FieldOrNull(secret: Json.Value, key: string): Json.Value {
    if secret.Obj? && key in secret.fields then secret.fields[key] else Json.Null
  }

  /** The backup branch runs. */
  predicate IsBackup(req: Request) {
    req.database != "" && req.operation == Backup
  }

  /** The restore branch runs: a database, the restore operation and a
      non-empty timestamp. */
  predicate IsRestore(req: Request)
    ensures IsRestore(req) ==> !IsBackup(req)
  {
    req.database != "" && req.operation == Restore && req.timestamp.Some? && req.timestamp.value != ""
  }

  /** The backup branch: dump, role dump and upload, all named after `now`;
      the upload removes the dump directory afterwards, which raises when
      the dump left no directory. */
  function BackupSteps(req: Request, now: string, env: Environment): Run {
    var dir := LocalDir(req.cluster, req.database, now);
    var files := env.dumped.GetOr([]);
    var steps := [ DumpDatabase(dir),
                   DumpRoles(RolesKey(BackupType, req.cluster, now)),
                   Upload(dir, UploadKeys(BackupType, req.cluster, req.database, now, files)) ];
    if env.dumped.None? then Run(steps, false)
    else Run(steps + [RemoveLocal(dir), Complete(CompletionLine(req))], true)
  }

  /** The restore branch: existence check, drop only when found, download,
      restore and vacuum, all named after the supplied timestamp. */
  function RestoreSteps(req: Request, env: Environment): Run
    requires IsRestore(req)
  {
    var ts := req.timestamp.value;
    Run(RestoreTrace(DatabaseExists(env.existing, req.database),
                     DropTables(env.dropping).issued,
                     DownloadStep(req.cluster, req.database, ts, env.listing),
                     LocalDir(req.cluster, req.database, ts),
                     VacuumAnalyzeTables(env.vacuuming).issued,
                     CompletionLine(req)), true)
  }

  /** `copy_from_s3`: list the prefix for `ts` and fetch each object into the
      local directory for `ts`. */
  function DownloadStep(cluster: string, database: string, ts: string, listing: seq<string>): Step {
    var prefix := ObjectPrefix(BackupType, cluster, database, ts);
    var dir := LocalDir(cluster, database, ts);
    Download(prefix, dir, DownloadTargets(dir, Selected(prefix, listing)))
  }

  /** The order of the restore branch. */
  function RestoreTrace(found: bool, drops: seq<string>, download: Step, dir: string,
                        vacuums: seq<string>, line: string): seq<Step> {
    [CheckExists(found)] + (if found then [DropAll(drops)] else [])
    + [download, RestoreDatabase(dir), VacuumAll(vacuums), Complete(line)]
  }

  /** The secret was fetched and the three credential lookups succeed: it
      is a dict, or a falsy value (`get_secret` swallows some errors and
      returns `None`). */
  predicate Readable(env: Environment) {
    env.secret.Some? && ReadCredentials(env.secret.value).Success?
  }

  /** `main`: read the credentials, then run the branch the request selects.
      A run that completes ends with the completion line. */
  function Main(req: Request, now: string, env: Environment): (run: Run)
    ensures run.completed ==> |run.steps| >= 2 && run.steps[|run.steps| - 1] == Complete(CompletionLine(req))
    ensures !run.completed <==> !Readable(env) || (IsBackup(req) && env.dumped.None?)
    ensures !Readable(env) ==> run.steps == []
  {
    if !Readable(env) then Run([], false)
    else if IsBackup(req) then BackupSteps(req, now, env)
    else if IsRestore(req) then RestoreSteps(req, env)
    else Run([NoOperationMatched, Complete(CompletionLine(req))], true)
  }

  /** The kind of a step, without its payload. */
  datatype Label = LDump | LRoles | LUpload | LRemove | LCheck | LDrop | LDownload | LRestore | LVacuum | LNoMatch | LComplete

  function LabelOf(step: Step): Label {
    match step
    case DumpDatabase(_) => LDump
    case DumpRoles(_) => LRoles
    case Upload(_, _) => LUpload
    case RemoveLocal(_) => LRemove
    case CheckExists(_) => LCheck
    case DropAll(_) => LDrop
    case Download(_, _, _) => LDownload
    case RestoreDatabase(_) => LRestore
    case VacuumAll(_) => LVacuum
    case NoOperationMatched => LNoMatch
    case Complete(_) => LComplete
  }

  function Labels(steps: seq<Step>): (r: seq<Label>)
    ensures |r| == |steps|
    ensures forall i :: 0 <= i < |steps| ==> r[i] == LabelOf(steps[i])
  {
    seq(|steps|, i requires 0 <= i < |steps| => LabelOf(steps[i]))
  }

  /** Which steps run, and in what order, for each request. */
  lemma StepOrder(req: Request, now: string, env: Environment)
    requires Readable(env)
    ensures IsBackup(req) && env.dumped.Some? ==>
              Labels(Main(req, now, env).steps) == [LDump, LRoles, LUpload, LRemove, LComplete]
    ensures IsBackup(req) && env.dumped.None? ==>
              Labels(Main(req, now, env).steps) == [LDump, LRoles, LUpload]
    ensures IsRestore(req) && DatabaseExists(env.existing, req.database) ==>
              Labels(Main(req, now, env).steps) == [LCheck, LDrop, LDownload, LRestore, LVacuum, LComplete]
    ensures IsRestore(req) && !DatabaseExists(env.existing, req.database) ==>
              Labels(Main(req, now, env).steps) == [LCheck, LDownload, LRestore, LVacuum, LComplete]
    ensures !IsBackup(req) && !IsRestore(req) ==>
              Labels(Main(req, now, env).steps) == [LNoMatch, LComplete]
  {
    if IsBackup(req) {
      BackupLabels(req, now, env);
    } else if IsRestore(req) {
      var ts := req.timestamp.value;
      RestoreLabels(DatabaseExists(env.existing, req.database), DropTables(env.dropping).issued,
                    DownloadStep(req.cluster, req.database, ts, env.listing), LocalDir(req.cluster, req.database, ts),
                    VacuumAnalyzeTables(env.vacuuming).issued, CompletionLine(req));
    }
  }

  lemma BackupLabels(req: Request, now: string, env: Environment)
    requires IsBackup(req)
    ensures env.dumped.Some? ==> Labels(BackupSteps(req, now, env).steps) == [LDump, LRoles, LUpload, LRemove, LComplete]
    ensures env.dumped.None? ==> Labels(BackupSteps(req, now, env).steps) == [LDump, LRoles, LUpload]
  {
  }

  lemma RestoreLabels(found: bool, drops: seq<string>, download: Step, dir: string,
                      vacuums: seq<string>, line: string)
    requires download.Download?
    ensures found ==> Labels(RestoreTrace(found, drops, download, dir, vacuums, line))
                      == [LCheck, LDrop, LDownload, LRestore, LVacuum, LComplete]
    ensures !found ==> Labels(RestoreTrace(found, drops, download, dir, vacuums, line))
                       == [LCheck, LDownload, LRestore, LVacuum, LComplete]
  {
  }

  /** Tables are dropped only right after an existence check that found the
      target database in the listing, and always when it did. */
  lemma DropGatedOnCheck(req: Request, now: string, env: Environment)
    ensures forall i :: 0 <= i < |Main(req, now, env).steps| && Main(req, now, env).steps[i].DropAll? ==>
              i == 1 && Main(req, now, env).steps[0] == CheckExists(true) && IsRestore(req)
              && env.existing.Open? && req.database in env.existing.rows
    ensures Readable(env) && IsRestore(req) && env.existing.Open? && req.database in env.existing.rows ==>
              Main(req, now, env).steps[1] == DropAll(Issued(Drop, env.dropping))
  {
  }

  /** A backup names everything after one time: the dump directory is the
      directory uploaded and removed, the role dump sits under the same
      time, and every uploaded key starts with the download prefix for that
      time. */
  lemma BackupUsesOneTime(req: Request, now: string, env: Environment)
    requires Readable(env) && IsBackup(req)
    ensures |Main(req, now, env).steps| >= 3
    ensures Main(req, now, env).steps[0] == DumpDatabase(LocalDir(req.cluster, req.database, now))
    ensures Main(req, now, env).steps[1] == DumpRoles(RolesKey(BackupType, req.cluster, now))
    ensures Main(req, now, env).steps[2].Upload?
    ensures Main(req, now, env).steps[2].dir == LocalDir(req.cluster, req.database, now)
    ensures forall k :: k in Main(req, now, env).steps[2].keys ==>
              IsPrefix(ObjectPrefix(BackupType, req.cluster, req.database, now), k)
    ensures env.dumped.Some? ==> Main(req, now, env).steps[3] == RemoveLocal(LocalDir(req.cluster, req.database, now))
  {
    var files := env.dumped.GetOr([]);
    forall k | k in UploadKeys(BackupType, req.cluster, req.database, now, files)
      ensures IsPrefix(ObjectPrefix(BackupType, req.cluster, req.database, now), k)
    {
      var i :| 0 <= i < |files| && k == ObjectKey(BackupType, req.cluster, req.database, now, files[i]);
      KeyExtendsPrefix(BackupType, req.cluster, req.database, now, files[i]);
    }
  }

  /** The restore reads the directory the download filled: some step
      downloads the prefix of the requested timestamp into its local
      directory, and the very next step restores from that directory. */
  lemma RestoreReadsDownloadedDir(req: Request, now: string, env: Environment)
    requires Readable(env) && IsRestore(req)
    ensures exists j :: 0 <= j < |Main(req, now, env).steps| - 1
              && Main(req, now, env).steps[j].Download?
              && Main(req, now, env).steps[j].prefix
                 == ObjectPrefix(BackupType, req.cluster, req.database, req.timestamp.value)
              && Main(req, now, env).steps[j].dir == LocalDir(req.cluster, req.database, req.timestamp.value)
              && Main(req, now, env).steps[j + 1] == RestoreDatabase(LocalDir(req.cluster, req.database, req.timestamp.value))
  {
    var ts := req.timestamp.value;
    var found := DatabaseExists(env.existing, req.database);
    var download := DownloadStep(req.cluster, req.database, ts, env.listing);
    var dir := LocalDir(req.cluster, req.database, ts);
    var trace := RestoreTrace(found, DropTables(env.dropping).issued, download, dir,
                              VacuumAnalyzeTables(env.vacuuming).issued, CompletionLine(req));
    assert Main(req, now, env).steps == trace;
    TraceDownloadAt(found, DropTables(env.dropping).issued, download, dir,
                    VacuumAnalyzeTables(env.vacuuming).issued, CompletionLine(req));
    var j := if found then 2 else 1;
    assert trace[j] == download && trace[j + 1] == RestoreDatabase(dir);
  }

  /** Restore step `j` downloads every file the backup `b` uploaded, under
      its dumped name, into the backup's dump directory, and nothing else;
      the next step restores from that directory. */
  ghost predicate ReadsBackAt(r: seq<Step>, j: nat, b: seq<Step>, files: seq<string>) {
    && j + 1 < |r| && |b| >= 3 && b[0].DumpDatabase? && b[2].Upload? && |b[2].keys| == |files|
    && r[j].Download? && r[j].dir == b[0].dir
    && (forall f :: f in r[j].fetches <==>
          exists i :: 0 <= i < |files| && f == Fetch(b[2].keys[i], b[0].dir + "/" + files[i]))
    && r[j + 1] == RestoreDatabase(b[0].dir)
  }

  /** End to end: restoring with the timestamp a backup used downloads every
      file that backup uploaded, and nothing else, under its own name into
      the directory the dump was written to, then restores from that same
      directory. The restore request agrees with the backup in cluster and
      database only. The bucket lists, in any order, the backup's files
      beside other backups' files, the role dumps and keys outside the
      backup type's tree. */
  lemma RestoreMatchesBackup(backup: Request, now: string, benv: Environment, restore: Request, renv: Environment,
                             objects: seq<StoredObject>)
    requires Readable(benv) && IsBackup(backup) && benv.dumped.Some?
    requires forall i :: 0 <= i < |benv.dumped.value| ==> '/' !in benv.dumped.value[i]
    requires '/' !in backup.cluster && '/' !in backup.database
    requires Readable(renv) && restore.operation == Restore && restore.timestamp == Some(now) && now != ""
    requires restore.cluster == backup.cluster && restore.database == backup.database
    requires ListsObjects(BackupType, objects, renv.listing)
    requires forall i :: 0 <= i < |benv.dumped.value| ==>
               StoredObject(backup.cluster, backup.database, now, benv.dumped.value[i]) in objects
    requires forall o :: o in objects ==> WellNamed(o, |now|)
    requires forall o :: o in objects && OfBackup(o, backup.cluster, backup.database, now) ==> o.name in benv.dumped.value
    ensures exists j :: 1 <= j <= 2 && ReadsBackAt(Main(restore, now, renv).steps, j, Main(backup, now, benv).steps, benv.dumped.value)
  {
    var files := benv.dumped.value;
    var dir := LocalDir(backup.cluster, backup.database, now);
    var b := Main(backup, now, benv).steps;
    assert b == BackupSteps(backup, now, benv).steps;
    assert b[0] == DumpDatabase(dir);
    var keys := UploadKeys(BackupType, backup.cluster, backup.database, now, files);
    assert b[2] == Upload(dir, keys);
    RestoreReadsWhatBackupWrote(BackupType, backup.cluster, backup.database, now, files, objects, renv.listing);
    assert IsRestore(restore) && !IsBackup(restore);
    var found := DatabaseExists(renv.existing, restore.database);
    var download := DownloadStep(backup.cluster, backup.database, now, renv.listing);
    var trace := RestoreTrace(found, DropTables(renv.dropping).issued, download, dir,
                              VacuumAnalyzeTables(renv.vacuuming).issued, CompletionLine(restore));
    assert Main(restore, now, renv).steps == trace;
    var j := if found then 2 else 1;
    TraceDownloadAt(found, DropTables(renv.dropping).issued, download, dir,
                    VacuumAnalyzeTables(renv.vacuuming).issued, CompletionLine(restore));
    assert ReadsBackAt(trace, j, b, files);
  }

  /** Where the download and the restore sit in the restore branch. */
  lemma TraceDownloadAt(found: bool, drops: seq<string>, download: Step, dir: string,
                        vacuums: seq<string>, line: string)
    ensures |RestoreTrace(found, drops, download, dir, vacuums, line)| == (if found then 6 else 5)
    ensures RestoreTrace(found, drops, download, dir, vacuums, line)[if found then 2 else 1] == download
    ensures RestoreTrace(found, drops, download, dir, vacuums, line)[if found then 3 else 2] == RestoreDatabase(dir)
  {
  }
}

=== FILE: requests.dfy ===
/** The command-line arguments shared by the scripts, as one immutable record. */
module Requests {
  import opened Wrappers

  /** `--operation`, restricted by argparse to these two choices. */
  datatype Operation = Backup | Restore

  /** The text argparse hands back for an operation. */
  function OperationName(op: Operation): (name: string)
    ensures op == Backup ==> name == "backup"
    ensures op == Restore ==> name == "restore"
  {
    match op
    case Backup => "backup"
    case Restore => "restore"
  }

  /** The parsed arguments of one invocation. `timestamp` is `None` when
      `--timestamp` was not given. */
  datatype Request = Request(
    database: string,
    operation: Operation,
    bucket: string,
    secret: string,
    cluster: string,
    endpoint: string,
    region: string,
    timestamp: Option<string>)
}

=== FILE: text.dfy ===
/** String operations the scripts rely on, each given the meaning of the
    Python built-in it stands for. */
module Text {

  /** `s.startswith(p)`, and the S3 `Prefix=` filter. */
  predicate IsPrefix(p: string, s: string) {
    |p| <= |s| && s[..|p|] == p
  }

  /** A prefix of a prefix of `s` is a prefix of `s`. */
  lemma PrefixOfPrefix(a: string, b: string, s: string)
    requires IsPrefix(a, b) && IsPrefix(b, s)
    ensures IsPrefix(a, s)
  {
    assert s[..|a|] == s[..|b|][..|a|];
  }

  /** `sub in s` for two strings. */
  predicate Contains(s: string, sub: string) {
    exists i | 0 <= i <= |s| - |sub| :: OccursAt(s, sub, i)
  }

  /** `sub` occurs in `s` starting at index `i`. */
  predicate OccursAt(s: string, sub: string, i: int)
    requires 0 <= i <= |s| - |sub|
  {
    s[i..i + |sub|] == sub
  }

  /** `s.rsplit('/', 1)[-1]`: the text after the last '/', or all of `s`
      when it holds no '/'. */
  function LastSegment(s: string): (r: string)
    ensures '/' !in r
    ensures |r| <= |s| && forall i :: 0 <= i < |r| ==> r[i] == s[|s| - |r| + i]
    ensures |r| < |s| ==> s[|s| - |r| - 1] == '/'
  {
    var n := SegmentStart(s);
    assert forall i :: 0 <= i < |s| - n ==> s[n..][i] == s[n + i];
    s[n..]
  }

  /** Where the last segment begins: just after the last '/', or at 0. */
  function SegmentStart(s: string): (n: nat)
    ensures n <= |s|
    ensures n == 0 || s[n - 1] == '/'
    ensures forall i :: n <= i < |s| ==> s[i] != '/'
    decreases |s|
  {
    if |s| == 0 then 0
    else if s[|s| - 1] == '/' then |s|
    else
      var p := s[..|s| - 1];
      assert forall i :: 0 <= i < |p| ==> p[i] == s[i];
      SegmentStart(p)
  }

  /** Whatever precedes a '/' never shows in the last segment. */
  lemma LastSegmentOfJoin(p: string, name: string)
    requires '/' !in name
    ensures LastSegment(p + "/" + name) == name
  {
    var s := p + "/" + name;
    var r := LastSegment(s);
    assert s[|p|] == '/';
    if |r| > |name| {
      assert false;
    } else if |r| < |name| {
      assert false;
    }
    assert r == s[|s| - |name|..] == name;
  }

  /** `s.split(' ')`: the pieces between single spaces, empty ones kept. */
  function Split(s: string): (r: seq<string>)
    ensures |r| > 0
    decreases |s|
  {
    if |s| == 0 then [""]
    else
      var rest := Split(s[1..]);
      if s[0] == ' ' then [""] + rest
      else [[s[0]] + rest[0]] + rest[1..]
  }

  /** `' '.join(words)` for a non-empty list of words. */
  function Join(words: seq<string>): string
    requires |words| > 0
  {
    if |words| == 1 then words[0] else words[0] + " " + Join(words[1..])
  }

  /** Joining words that start with `w` puts `w` and a space first. */
  lemma JoinFirst(w: string, rest: seq<string>)
    requires |rest| > 0
    ensures Join([w] + rest) == w + " " + Join(rest)
  {
    assert ([w] + rest)[1..] == rest;
  }

  /** A join of several words starts with the first word and a space. */
  lemma JoinFirstWord(w: string, rest: seq<string>)
    requires |rest| > 0
    ensures IsPrefix(w + " ", Join([w] + rest))
  {
    JoinFirst(w, rest);
    assert (w + " " + Join(rest))[..|w| + 1] == w + " ";
  }

  /** Putting a word in front of a join puts it and a space in front of
      every prefix of that join. */
  lemma JoinFirstPrefix(w: string, p: string, rest: seq<string>)
    requires |rest| > 0 && IsPrefix(p, Join(rest))
    ensures IsPrefix(w + " " + p, Join([w] + rest))
  {
    JoinFirst(w, rest);
    PrefixAfterWord(w, p, Join(rest));
  }

  /** Putting a word and a space in front of two strings keeps one a
      prefix of the other. */
  lemma PrefixAfterWord(w: string, p: string, t: string)
    requires IsPrefix(p, t)
    ensures IsPrefix(w + " " + p, w + " " + t)
  {
    var head := w + " ";
    assert (head + t)[..|head| + |p|] == head + t[..|p|];
  }

  /** A word without a space is one piece. */
  lemma {:induction false} SplitWord(w: string)
    requires ' ' !in w
    ensures Split(w) == [w]
    decreases |w|
  {
    if |w| > 0 {
      SplitWord(w[1..]);
      assert [w[0]] + w[1..] == w;
    }
  }

  /** Splitting at the first space takes off exactly the first word. */
  lemma {:induction false} SplitFirstWord(w: string, rest: string)
    requires ' ' !in w
    ensures Split(w + " " + rest) == [w] + Split(rest)
    decreases |w|
  {
    var s := w + " " + rest;
    if |w| == 0 {
      assert s == " " + rest;
      assert s[1..] == rest;
    } else {
      assert s[1..] == w[1..] + " " + rest;
      SplitFirstWord(w[1..], rest);
      assert [w[0]] + w[1..] == w;
    }
  }

  /** Joining words without spaces and splitting the result again gives the
      same words back. */
  lemma {:induction false} SplitJoin(words: seq<string>)
    requires |words| > 0
    requires forall i :: 0 <= i < |words| ==> ' ' !in words[i]
    ensures Split(Join(words)) == words
    decreases |words|
  {
    if |words| == 1 {
      SplitWord(words[0]);
    } else {
      SplitFirstWord(words[0], Join(words[1..]));
      SplitJoin(words[1..]);
    }
  }
}

=== FILE: transfer.dfy ===
/** The object-storage side of a backup: which keys `copy_to_s3` uploads and
    which objects `copy_from_s3` downloads to which local files
    (ec2-scripts/aurora-operation.py). Transfers themselves are external. */
module Transfer {
  import opened Text
  import opened Naming

  /** The keys `copy_to_s3` uploads the dumped files under, one per file, in
      the order the directory walk lists them. */
  function UploadKeys(backupType: string, cluster: string, database: string, time: string, fileNames: seq<string>): (keys: seq<string>)
    ensures |keys| == |fileNames|
    ensures forall i :: 0 <= i < |keys| ==> keys[i] == ObjectKey(backupType, cluster, database, time, fileNames[i])
    decreases |fileNames|
  {
    if fileNames == [] then []
    else [ObjectKey(backupType, cluster, database, time, fileNames[0])]
         + UploadKeys(backupType, cluster, database, time, fileNames[1..])
  }

  /** The objects the prefix filter of the download yields, in listing
      order. */
  function Selected(prefix: string, listing: seq<string>): (keys: seq<string>)
    ensures |keys| <= |listing|
    ensures forall k :: k in keys <==> k in listing && IsPrefix(prefix, k)
    decreases |listing|
  {
    if listing == [] then []
    else
      assert listing == [listing[0]] + listing[1..];
      if IsPrefix(prefix, listing[0]) then [listing[0]] + Selected(prefix, listing[1..])
      else Selected(prefix, listing[1..])
  }

  /** The filter keeps every copy of a key carrying the prefix and no copy
      of any other key. */
  lemma {:induction false} SelectedCounts(prefix: string, listing: seq<string>)
    ensures forall k :: multiset(Selected(prefix, listing))[k]
                     == if IsPrefix(prefix, k) then multiset(listing)[k] else 0
    decreases |listing|
  {
    if listing != [] {
      var h, t := listing[0], listing[1..];
      assert listing == [h] + t;
      SelectedCounts(prefix, t);
      SelectedCons(prefix, h, t);
    }
  }

  /** The filter keeps listing order: filtering two listings one after the
      other gives the two selections one after the other. With `SelectedOne`
      this pins `Selected` down as the order-keeping filter. */
  lemma {:induction false} SelectedAppend(prefix: string, a: seq<string>, b: seq<string>)
    ensures Selected(prefix, a + b) == Selected(prefix, a) + Selected(prefix, b)
    decreases |a|
  {
    if a == [] {
      assert a + b == b;
    } else {
      var h, t := a[0], a[1..];
      assert a == [h] + t;
      assert a + b == [h] + (t + b);
      var head := if IsPrefix(prefix, h) then [h] else [];
      SelectedAppend(prefix, t, b);
      SelectedCons(prefix, h, t + b);
      SelectedCons(prefix, h, t);
      Regroup(head, Selected(prefix, t), Selected(prefix, b));
    }
  }

  /** Concatenation regroups. */
  lemma Regroup(x: seq<string>, y: seq<string>, z: seq<string>)
    ensures x + (y + z) == (x + y) + z
  {
  }

  /** The filter decides the first listed key, then goes on with the rest. */
  lemma SelectedCons(prefix: string, h: string, rest: seq<string>)
    ensures Selected(prefix, [h] + rest) == (if IsPrefix(prefix, h) then [h] else []) + Selected(prefix, rest)
  {
    assert ([h] + rest)[1..] == rest;
  }

  /** A single listed key is selected exactly when it carries the prefix. */
  lemma SelectedOne(prefix: string, k: string)
    ensures Selected(prefix, [k]) == if IsPrefix(prefix, k) then [k] else []
  {
    assert [k][1..] == [];
  }

  /** One download: an object key and the local file it is written to. */
  datatype Fetch = Fetch(key: string, localPath: string)

  /** `copy_from_s3`'s per-object target: the download directory, a '/',
      and the last segment of the key. */
  function DownloadTargets(dir: string, keys: seq<string>): (fetches: seq<Fetch>)
    ensures |fetches| == |keys|
    ensures forall i :: 0 <= i < |keys| ==> fetches[i].key == keys[i]
    ensures forall i :: 0 <= i < |keys| ==> LandsIn(dir, fetches[i].localPath, LastSegment(keys[i]))
  {
    seq(|keys|, i requires 0 <= i < |keys| => Fetch(keys[i], dir + "/" + LastSegment(keys[i])))
  }

  /** `path` names the file `name` directly inside `dir`: not in a
      subdirectory of it. */
  predicate LandsIn(dir: string, path: string, name: string) {
    path == dir + "/" + name && '/' !in name
  }

  /** The keys the bucket lists, one per stored object, in the bucket's own
      order. */
  function Listing(backupType: string, objects: seq<StoredObject>): (keys: seq<string>)
    ensures |keys| == |objects|
    ensures forall i :: 0 <= i < |objects| ==> keys[i] == StoredKey(backupType, objects[i])
  {
    seq(|objects|, i requires 0 <= i < |objects| => StoredKey(backupType, objects[i]))
  }

  /** A listing whose keys all carry the prefix passes the filter whole. */
  lemma {:induction false} SelectedKeepsAll(prefix: string, listing: seq<string>)
    requires forall i :: 0 <= i < |listing| ==> IsPrefix(prefix, listing[i])
    ensures Selected(prefix, listing) == listing
    decreases |listing|
  {
    if listing != [] {
      SelectedKeepsAll(prefix, listing[1..]);
    }
  }

  /** The bucket's listing holds the key of every stored object, and any
      other key it holds lies outside the `{backup_type}/` tree, as the
      worker script under `ec2-scripts/` does. */
  predicate ListsObjects(backupType: string, objects: seq<StoredObject>, listing: seq<string>) {
    && (forall i :: 0 <= i < |objects| ==> StoredKey(backupType, objects[i]) in listing)
    && (forall k :: k in listing ==> k in Listing(backupType, objects) || !IsPrefix(backupType + "/", k))
  }

  /** `o` is stored in the folder the backup of `database` on `cluster` at
      `time` uploads into. */
  predicate OfBackup(o: StoredObject, cluster: string, database: string, time: string) {
    o.cluster == cluster && o.folder == database && o.time == time
  }

  /** Restore reads back what backup wrote. The bucket may hold, in any
      order, the files of this backup, the files of other backups (other
      clusters, other databases, other timestamps of the same width), the
      role dumps written beside them, and keys outside the backup tree. Listing the prefix of this backup
      selects exactly the keys it uploaded, and each is downloaded into the
      directory the dump was written to, under the name the dumped file had. */
  lemma {:induction false} RestoreReadsWhatBackupWrote(backupType: string, cluster: string, database: string, time: string,
                                    fileNames: seq<string>, objects: seq<StoredObject>, listing: seq<string>)
    requires '/' !in backupType && '/' !in cluster && '/' !in database
    requires forall i :: 0 <= i < |fileNames| ==> '/' !in fileNames[i]
    requires forall i :: 0 <= i < |fileNames| ==> StoredObject(cluster, database, time, fileNames[i]) in objects
    requires forall o :: o in objects ==> WellNamed(o, |time|)
    requires forall o :: o in objects && OfBackup(o, cluster, database, time) ==> o.name in fileNames
    requires ListsObjects(backupType, objects, listing)
    ensures forall k :: k in Selected(ObjectPrefix(backupType, cluster, database, time), listing)
                    <==> k in UploadKeys(backupType, cluster, database, time, fileNames)
    ensures forall f :: f in DownloadTargets(LocalDir(cluster, database, time),
                                             Selected(ObjectPrefix(backupType, cluster, database, time), listing))
                    <==> exists i :: 0 <= i < |fileNames| &&
                           f == Fetch(ObjectKey(backupType, cluster, database, time, fileNames[i]),
                                      LocalDir(cluster, database, time) + "/" + fileNames[i])
  {
    var keys := UploadKeys(backupType, cluster, database, time, fileNames);
    SelectsExactlyUploads(backupType, cluster, database, time, fileNames, objects, listing);
    forall i | 0 <= i < |fileNames|
      ensures LastSegment(keys[i]) == fileNames[i]
    {
      FileNameRoundTrip(backupType, cluster, database, time, fileNames[i]);
    }
    FetchesNameFiles(LocalDir(cluster, database, time),
                     Selected(ObjectPrefix(backupType, cluster, database, time), listing),
                     keys, fileNames);
  }

  /** The prefix filter over such a bucket keeps the backup's own keys and
      nothing else. */
  lemma {:induction false} SelectsExactlyUploads(backupType: string, cluster: string, database: string, time: string,
                              fileNames: seq<string>, objects: seq<StoredObject>, listing: seq<string>)
    requires '/' !in backupType && '/' !in cluster && '/' !in database
    requires forall i :: 0 <= i < |fileNames| ==> StoredObject(cluster, database, time, fileNames[i]) in objects
    requires forall o :: o in objects ==> WellNamed(o, |time|)
    requires forall o :: o in objects && OfBackup(o, cluster, database, time) ==> o.name in fileNames
    requires ListsObjects(backupType, objects, listing)
    ensures forall k :: k in Selected(ObjectPrefix(backupType, cluster, database, time), listing)
                    <==> k in UploadKeys(backupType, cluster, database, time, fileNames)
  {
    var prefix := ObjectPrefix(backupType, cluster, database, time);
    var stored := Listing(backupType, objects);
    var selected := Selected(prefix, listing);
    var keys := UploadKeys(backupType, cluster, database, time, fileNames);
    forall k | k in selected
      ensures k in keys
    {
      PrefixOfPrefix(backupType + "/", prefix, k);
      var m :| 0 <= m < |objects| && stored[m] == k;
      var o := objects[m];
      PrefixPinsObject(backupType, cluster, database, time, o);
      assert OfBackup(o, cluster, database, time);
      var i :| 0 <= i < |fileNames| && fileNames[i] == o.name;
      assert k == keys[i];
    }
    forall i | 0 <= i < |fileNames|
      ensures keys[i] in selected
    {
      KeyExtendsPrefix(backupType, cluster, database, time, fileNames[i]);
      var m :| 0 <= m < |objects| && objects[m] == StoredObject(cluster, database, time, fileNames[i]);
      assert stored[m] == keys[i];
    }
  }

  /** A restore of a database named `roles` at a backup's time selects that
      backup's role dump, whenever the bucket holds it. */
  lemma RolesRestoreSelectsRoleDump(backupType: string, cluster: string, time: string,
                                    objects: seq<StoredObject>, listing: seq<string>)
    requires RolesDump(cluster, time) in objects
    requires ListsObjects(backupType, objects, listing)
    ensures RolesKey(backupType, cluster, time) in Selected(ObjectPrefix(backupType, cluster, "roles", time), listing)
  {
    RolesDumpStoredAtRolesKey(backupType, cluster, time);
    RolesKeyExtendsPrefix(backupType, cluster, time);
    var m :| 0 <= m < |objects| && objects[m] == RolesDump(cluster, time);
    assert Listing(backupType, objects)[m] == RolesKey(backupType, cluster, time);
  }

  /** Downloading a selection that holds exactly `keys`, whose last segments
      are `fileNames`, fetches key `i` to `dir/fileNames[i]` and nothing else. */
  lemma {:induction false} FetchesNameFiles(dir: string, selected: seq<string>, keys: seq<string>, fileNames: seq<string>)
    requires |keys| == |fileNames|
    requires forall i :: 0 <= i < |keys| ==> LastSegment(keys[i]) == fileNames[i]
    requires forall k :: k in selected <==> k in keys
    ensures forall f :: f in DownloadTargets(dir, selected)
                    <==> exists i :: 0 <= i < |fileNames| && f == Fetch(keys[i], dir + "/" + fileNames[i])
  {
    var fetches := DownloadTargets(dir, selected);
    forall i | 0 <= i < |fileNames|
      ensures Fetch(keys[i], dir + "/" + fileNames[i]) in fetches
    {
      assert keys[i] in selected;
      var m :| 0 <= m < |selected| && selected[m] == keys[i];
      FetchAt(dir, selected, m);
    }
    forall f | f in fetches
      ensures exists i :: 0 <= i < |fileNames| && f == Fetch(keys[i], dir + "/" + fileNames[i])
    {
      var m :| 0 <= m < |fetches| && fetches[m] == f;
      FetchAt(dir, selected, m);
      assert selected[m] in keys;
      var i :| 0 <= i < |keys| && selected[m] == keys[i];
      assert f == Fetch(keys[i], dir + "/" + fileNames[i]);
    }
  }

  /** The fetch for the `m`-th selected key. */
  lemma FetchAt(dir: string, selected: seq<string>, m: nat)
    requires m < |selected|
    ensures m < |DownloadTargets(dir, selected)|
    ensures DownloadTargets(dir, selected)[m] == Fetch(selected[m], dir + "/" + LastSegment(selected[m]))
  {
  }
}

=== FILE: wrappers.dfy ===
/** The two shapes of outcome the model needs. */
module Wrappers {

  /** A value that may be absent: an optional argument, a file listing of a
      directory that may not exist. */
  datatype Option<+T> = None | Some(value: T) {

    /** The value, or `fallback` when there is none (argparse's default). */
    function GetOr(fallback: T): T {
      if Some? then value else fallback
    }
  }

  /** A value, or the error that stopped its computation. The three members
      let `:-` pass an error on unchanged. */
  datatype Result<+R, +E> = Success(value: R) | Failure(error: E) {

    predicate IsFailure() {
      Failure?
    }

    function PropagateFailure<U>(): Result<U, E>
      requires Failure?
    {
      Failure(error)
    }

    function Extract(): R
      requires Success?
    {
      value
    }
  }
}
